=== FILE: README.md ===
# exetel-api core, modelled in Dafny

A model of the client for the Exetel customer-account web API (`exetel-api`, written in Rust). The model covers three parts:

- **Scalar codecs** (`src/customer.rs`). `Price` is read from text such as `$12.34` into whole cents and displayed back as `$W.FF`. `Percentage` is a bare `u32` that displays as `n%`. The `{ "data": … }` envelope is unwrapped. `GetServices` is a query for the path `/service` with no body.
- **Authorization** (`src/auth.rs`). This part covers the login request and its JSON body, decoding the login response into an `Authorization`, the token accessor, the expiry time, and the refresh predicate `should_refresh`.
- **Query engine** (`src/client.rs`). A query becomes a request description. The URL is the fixed prefix followed by the query's path. A query with a body is sent as a JSON POST, and one without a body as a plain-text GET. Every request asks for JSON back. The client's one default header is `Authorization: Bearer <token>`.

Files:

- `wrappers.dfy`: `Option` and `Result`.
- `decimal.dfy`: `u32`/`u64` ranges, `u32::from_str`, and `{}` / `{:02}` formatting.
- `strings.dfy`: `str::split` on one character.
- `json.dfy`: JSON values, and how a derived `Deserialize` finds a field (the key must occur exactly once).
- `http.dfy`: the request description, header names and media types.
- `queries.dfy`: the `Query` trait of `src/client.rs`. It holds the URL prefix, `url()` and the default `body()`.
- `customer.dfy`, `auth.dfy`, `client.dfy`: one module for each core source file.

Several things are parameters instead of being modelled:

- Time is a whole number of seconds, and the current time is passed in.
- Sending a request is a function from the request description to the JSON its response parses to.
- The URL parser and the header-value parser of the underlying crates are predicates (`validUrl`, `validHeaderValue`).

`Price::from_str` updates its locals step by step, so `ParsePrice` is an imperative method. Its loop is proved against the function `PriceFromStr`, and the codec's properties are proved as lemmas about that function. Everything else in the core is expressions, so it is modelled with datatypes and functions.

The model follows the code at these points, where the code may differ from what a reader expects:

- `should_refresh` returns true while `now < expires_at + 300 s`, which means it is true for a fresh token and false only after that point.
- The login response keys are the Rust field names (`token_type`, `expires_in`, `access_token`, `refresh_token`) plus the renamed `persistLogin`, not camelCase names.
- The `GetServices` response type is `Data<Services>`, so the whole services object is expected inside an outer `{ "data": … }`.
- `Percentage` is a `u32`, so negative values do not exist.
- Price text with more than two `.`-separated groups is accepted: the extra groups are ignored, not refused.

## Model

| member | source | states |
|---|---|---|
| `Decimal.Dec` | src/customer.rs:182 | `{}` of an unsigned number is a non-empty string of ASCII digits that denotes the number, with a leading `0` only for zero, and exactly `"0"` for zero |
| `Decimal.Pad2` | src/customer.rs:182 | `{:02}` of a number below 100 is exactly two digits, whose value is that number |
| `Decimal.ParseU32` | src/customer.rs:159 | `parse::<u32>()` succeeds only on non-empty text; what it accepts, the value it gives and what it refuses are stated by `ParseU32Range`, `DecRoundTrip`, `Pad2RoundTrip` and `ParseU32Rejects` |
| `Decimal.ParseU32Range` | src/customer.rs:159 | a leading `+` is accepted and ignored, and a non-empty digit string is accepted exactly when its value is at most `u32::MAX`, and then parses to that value, leading zeros included |
| `Decimal.DecRoundTrip` | src/customer.rs:159 | `parse::<u32>()` of the `{}` text of any `u32` gives the number back |
| `Decimal.Pad2RoundTrip` | src/customer.rs:159 | `parse::<u32>()` accepts a zero-padded two-digit group and gives its value |
| `Decimal.ParseU32Rejects` | src/customer.rs:159 | `parse::<u32>()` refuses the empty text, a lone `+`, and any text with another non-digit (a minus sign included) |
| `Strings.Split` | src/customer.rs:153 | `split('.')` always yields at least one piece |
| `Strings.SplitJoin` | src/customer.rs:153 | the pieces of `split('.')` hold no `.`, and joining them with `.` gives the text back |
| `Strings.SplitWithout` | src/customer.rs:153 | text without a `.` splits into itself alone, the case in which `"0"` is pushed |
| `Strings.SplitAfter` | src/customer.rs:153 | a `.`-free head followed by `.` is the first piece, and the rest splits on its own |
| `Json.Lookup` | src/auth.rs:108-120 | a derived `Deserialize` finds a field only when its key occurs exactly once, and the value it finds is that member's |
| `Json.LookupDistinct` | src/auth.rs:108-120 | a member whose key occurs nowhere else is found under its key |
| `Queries.Url` | src/client.rs:97-99 | `url()` succeeds exactly when the URL parser accepts the prefix followed by the path, and its text is the prefix followed by the path |
| `Customer.Data.Unwrap` | src/customer.rs:20-22 | `unwrap` returns exactly the wrapped value: wrapping it again gives the same envelope |
| `Customer.DecodeData` | src/customer.rs:14-17 | an envelope decodes exactly when the object has one `data` key whose member decodes, wherever that key stands, and its content is what that member decodes to |
| `Customer.GetServices` | src/customer.rs:47-57 | the services query has path `/service` and the default `body()`; its request is stated by `Client.GetServicesRequest` |
| `Customer.DataEnvelope` | src/customer.rs:14-23 | `{ "data": v }` plus other keys decodes exactly when `v` does, and `unwrap` then gives `v`'s value |
| `Customer.Price.ToString` | src/customer.rs:180-184 | Display (and Debug and `Into<String>`) is `$`, then the shortest numeral of `cents / 100`, then `.`, then `cents % 100` as two zero-padded digits; the digits read back as `whole * 100 + cents` |
| `Customer.Price.ToJson` | src/customer.rs:174-178 | `Into<String>`: a price is sent as its display text; `PriceRoundTrip` and `PriceFromJson` state that this string decodes back to the price |
| `Customer.StripDollar` | src/customer.rs:148-150 | at most one leading `$` is removed, and putting it back gives the text |
| `Customer.StripDollarAsWritten` | src/customer.rs:148 | the byte-slice test panics exactly when the first character is not ASCII, and otherwise strips like `StripDollar` |
| `Customer.Amounts` | src/customer.rs:153-156 | after the `"0"` push there are always at least two groups for the loop |
| `Customer.Accumulate` | src/customer.rs:157-160 | the loop's arithmetic over the two groups, `whole * 100 + frac` with each step checked against `u32`; `AccumulateInRange`, `PriceTwoGroups` and `ParsePrice` state its result |
| `Customer.PriceFromStr` | src/customer.rs:147-163 | what `from_str` computes, with the corrected `$` strip (see Findings); `ParsePrice` is proved equal to it and `PriceRoundTrip`, `PriceTwoGroups`, `PriceWholeOnly` and `PriceIgnoresExtraGroups` state its meaning |
| `Customer.ParsePrice` | src/customer.rs:147-163 | the loop over the first two groups returns exactly the result of `PriceFromStr`, including the error and its kind |
| `Customer.PriceFromJson` | src/customer.rs:166-172 | a price is read only from a JSON string, and only when `from_str` accepts it |
| `Customer.StripDollarBeforeDot` | src/customer.rs:148-150 | a `$` is looked for only at the very start, never after the first `.` |
| `Customer.PriceFromGroups` | src/customer.rs:152-160 | for text of two or more groups, the result depends only on the first group (after `$` stripping) and the second |
| `Customer.PriceTwoGroups` | src/customer.rs:157-160 | `whole.frac` gives `whole * 100 + frac` with the second group unscaled, and it succeeds exactly when both groups are `u32` literals and the sum fits in a `u32` |
| `Customer.PriceWholeOnly` | src/customer.rs:153-156 | with no `.`, the fraction counts as 0, so the text gives `whole * 100`, with or without one `$` |
| `Customer.PriceIgnoresExtraGroups` | src/customer.rs:157 | groups after the second never change the result, whatever they contain |
| `Customer.PriceOneDollar` | src/customer.rs:148-150 | one leading `$` never changes the result |
| `Customer.AccumulateInRange` | src/customer.rs:157-160 | two `u32` groups `w` and `f` with `w * 100 + f` in range give exactly that many cents |
| `Customer.PriceOfText` | src/customer.rs:147-163 | a text whose first two groups (after one optional `$`) are `u32` literals `w` and `f`, with the sum in range, is `w * 100 + f` cents whatever follows |
| `Customer.PriceDoubleDollar` | src/customer.rs:148-150 | text starting with `$$` always fails as an invalid number |
| `Customer.PriceOfDisplay` | src/customer.rs:147-163 | text of the display form, `$`, the numeral of `w`, `.` and two padded digits of `f`, parses to `w * 100 + f` cents |
| `Customer.PriceRoundTrip` | src/customer.rs:144-184 | parsing the display text of every `u32` price gives the price back, and so does the serde string form |
| `Customer.PriceExampleDollarsAndCents` | src/customer.rs:147-163 | `"$12.34"` is 1234 cents |
| `Customer.PriceExampleWholeUnits` | src/customer.rs:153-156 | `"12"` and `"$12"` are both 1200 cents |
| `Customer.PriceExampleUnscaledFraction` | src/customer.rs:158-159 | `"12.5"` is 1205 cents |
| `Customer.PriceExampleLongFraction` | src/customer.rs:158-159 | `"1.234"` is 334 cents |
| `Customer.PriceExampleExtraGroup` | src/customer.rs:157 | `"1.2.x"` is 102 cents |
| `Customer.PriceExampleDisplay` | src/customer.rs:182 | `Price(5)` displays as `"$0.05"` |
| `Customer.PriceRejectExamples` | src/customer.rs:159 | `""`, `"abc"`, `"1."`, `".5"` and `"$$1"` all fail as invalid numbers |
| `Customer.NonAsciiFirstCharacter` | src/customer.rs:148 | `"€1"` makes the slice as written panic, while stripping by character gives an ordinary parse failure |
| `Customer.Percentage.ToString` | src/customer.rs:241-245 | Display is the shortest numeral of the number followed by `%`, and the digits read back as the number |
| `Customer.Percentage.ToU32` | src/customer.rs:235-239 | `Into<u32>`; `PercentageRoundTrip` proves it inverse to `From<u32>` |
| `Customer.PercentageFromU32` | src/customer.rs:229-233 | `From<u32>`; `PercentageRoundTrip` proves it inverse to `Into<u32>` |
| `Customer.PercentageFromJson` | src/customer.rs:224-227 | a percentage is read exactly from a JSON number in `u32` range, and holds that number |
| `Customer.Percentage.ToJson` | src/customer.rs:226 | `#[serde(into = "u32")]`: a percentage is sent as its bare number; `PercentageRoundTrip` states that it decodes back |
| `Customer.PercentageRoundTrip` | src/customer.rs:229-239 | `From<u32>` and `Into<u32>` are inverses, and the wire encoding decodes back to the percentage |
| `Customer.PercentageExample` | src/customer.rs:243 | `Percentage(42)` displays as `"42%"` |
| `Auth.NewLoginQuery` | src/auth.rs:97-104 | `Query::new` keeps the username and password, with no access token and `persistLogin` false |
| `Auth.LoginRequest` | src/auth.rs:36-45 | the login is a POST to the login URL whose body is exactly the serialized `Query::new(username, password)`, found under the `username` and `password` keys, and whose headers are exactly origin, referer, JSON accept and JSON content type, in that order |
| `Auth.LoginQuery.ToJson` | src/auth.rs:84-95 | the derived `Serialize` of the login body; `LoginBodyShape` and `LoginBodySkipsPresentToken` state its shape |
| `Auth.Token.ToString` | src/auth.rs:134-138 | `Display` of a token is its string; `AuthenticatedToken` states what a login shows |
| `Auth.Token.ToJson` | src/auth.rs:130-132 | `#[serde(transparent)]`: a token is sent as its bare string; `ResponseMembers` and `ResponseRoundTrip` state what that gives |
| `Auth.LoginBodyCredentials` | src/auth.rs:84-104 | in a fresh login body the username and password are found under their own keys |
| `Auth.LoginBodyShape` | src/auth.rs:86-95 | a fresh login body is `accessToken: null`, `password`, `persistLogin: false`, `username`, in that order |
| `Auth.LoginBodySkipsPresentToken` | src/auth.rs:88-90 | the `accessToken` key is absent exactly when a token is present |
| `Auth.Response.ToJson` | src/auth.rs:107-120 | the derived `Serialize` of the response, `persistLogin` renamed; `ResponseMembers` and `ResponseRoundTrip` state what it holds |
| `Auth.DecodeTokenType` | src/auth.rs:122-127 | the only token type is the unit variant `"Bearer"`; `ResponseNeedsBearer` states that any other member is refused |
| `Auth.DecodeMembers` | src/auth.rs:107-120 | the derived visitor builds a response only when each of the five members has its field's type; `DecodeResponse` and `MembersRoundTrip` state its result |
| `Auth.DecodeResponse` | src/auth.rs:108-120 | a response decodes exactly when `token_type` is `"Bearer"`, `expires_in` is a `u64`, both tokens are strings and `persistLogin` is a boolean, each under a key that occurs once; the decoded fields are those values |
| `Auth.ResponseMembers` | src/auth.rs:108-120 | a serialized response holds each of its five fields under its own key |
| `Auth.MembersRoundTrip` | src/auth.rs:107-132 | the five members a response serializes to build that response again |
| `Auth.ResponseRoundTrip` | src/auth.rs:108-132 | a serialized response decodes back to itself |
| `Auth.ResponseNeedsBearer` | src/auth.rs:122-127 | a response whose token type is missing or is anything other than `"Bearer"` is refused |
| `Auth.Authorization.ExpiresAt` | src/auth.rs:75-77 | the expiry is `expires_in` seconds after the response arrived |
| `Auth.Authenticate` | src/auth.rs:51-58 | login succeeds exactly when the response decodes, the authorization holds the decoded response unchanged, and it is stamped with the time the response was received |
| `Auth.AuthenticatedToken` | src/auth.rs:61-63 | after a login, `access_token()` displays exactly the response's `access_token` string, and the expiry is the receipt time plus `expires_in` |
| `Auth.Authorization.AccessToken` | src/auth.rs:61-63 | the token of the last response; `AuthenticatedToken` and `AuthorizationExample` state what it shows |
| `Auth.Authorization.ShouldRefresh` | src/auth.rs:80-82 | `should_refresh` as written; its meaning is stated by `ShouldRefreshWindow`, `ShouldRefreshAntitone` and `ShouldRefreshMonotoneInLifetime` |
| `Auth.ShouldRefreshWindow` | src/auth.rs:80-82 | `should_refresh(now)` holds exactly when `now < last_refreshed + expires_in + 300`, so it already holds at the moment of login |
| `Auth.ShouldRefreshAntitone` | src/auth.rs:80-82 | if `should_refresh` holds at a time, it held at every earlier time |
| `Auth.ShouldRefreshMonotoneInLifetime` | src/auth.rs:80-82 | a longer `expires_in` with the same refresh time keeps `should_refresh` true |
| `Auth.Authorization.ShouldRefreshAsDocumented` | src/auth.rs:71 | what the doc comment of `REFRESH_WINDOW` describes (see Findings); `AsDocumentedWindow` states its meaning |
| `Auth.AsDocumentedWindow` | src/auth.rs:71-72 | the documented predicate holds exactly when less than five minutes remain before expiry, and it then stays true |
| `Auth.ShouldRefreshDisagreesWithDoc` | src/auth.rs:71-82 | the code and the doc comment agree only within five minutes either side of expiry; a fresh one-hour token shows both kinds of disagreement |
| `Auth.AuthenticateExample` | src/auth.rs:51-58 | the example response with token `abc` and 3600 s decodes to the expected authorization |
| `Auth.AuthorizationExample` | src/auth.rs:61-82 | that authorization shows `abc`, expires 3600 s after receipt and already asks for a refresh |
| `Client.PostRequest` | src/client.rs:32-43 | `post`: a POST of the body with a JSON content type; stated through `Client.Client.Prepare` |
| `Client.GetRequest` | src/client.rs:45-50 | `get`: a bodyless GET with a plain-text content type; stated through `Client.Client.Prepare` |
| `Client.WithAccept` | src/client.rs:52-55 | `request` adds `accept: application/json` after the other headers; stated through `Client.Client.Prepare` |
| `Client.Client.Prepare` | src/client.rs:24-55 | a query with a body is a POST of that body with `content-type: application/json`; one without a body is a bodyless GET with `content-type: text/plain`; both go to prefix plus path, both add `accept: application/json`, and both fail only on an invalid URL |
| `Client.Client.Execute` | src/client.rs:24-60 | a query succeeds exactly when its URL is valid, the exchange (the prepared request sent with the client's default headers) succeeds and the answer decodes, and then returns the decoded value; it fails with `InvalidUrl` before anything is sent, `TransportFailed` when the exchange yields no JSON (sending fails or, in this model, the response text is not JSON), and `DecodeFailed` when JSON comes back that does not match the expected type |
| `Client.FromAuthorization` | src/client.rs:67-73 | building a client keeps the authorization and sets the single default header `authorization: Bearer <token>`; it fails exactly when that is not a valid header value |
| `Queries.DefaultBody` | src/client.rs:101-104 | the default `body()` is `None`; `DefaultBodyMeansGet` states that such a query is sent as a GET |
| `Client.DefaultBodyMeansGet` | src/client.rs:102-104 | a query that keeps the default `body()` is sent as a bodyless plain-text GET |
| `Client.GetServicesRequest` | src/customer.rs:50-57 | `GetServices` is a GET of `https://webservices.api.exetel.com.au/v1/service` |
| `Client.Client.Services` | src/client.rs:78-80 | `services()`; its result is stated by `ServicesUnwrapsEnvelope` |
| `Client.ServicesUnwrapsEnvelope` | src/client.rs:78-80 | `services()` returns `s` exactly when the URL is valid and the answer to the `GetServices` GET, sent with the client's default headers, decodes as an envelope holding `s` |
| `Client.ClientExample` | src/client.rs:69-70 | the client built from the example login sends `authorization: Bearer abc` |

## Findings

| source | as written | input that shows it | evidently intended | confidence | as-written member | corrected member |
|---|---|---|---|---|---|---|
| src/customer.rs:148 | `&text[0..1]` slices one byte, and the slice panics when byte 1 is inside the first character | `"€1"`, or any price text whose first character is not ASCII | strip one leading `$` character and report other text as a parse error | high; not executed | `Customer.StripDollarAsWritten` (exhibited by `Customer.NonAsciiFirstCharacter`) | `Customer.StripDollar` (used by `PriceFromStr` and `ParsePrice`; `Customer.PriceDoubleDollar`) |
| src/auth.rs:81 | `expires_at() + REFRESH_WINDOW > now`: true from login until five minutes after expiry | `expires_in = 3600`: true at the moment of login, false 4200 s later | true once less than five minutes remain (the doc comment at src/auth.rs:71) | medium; not executed | `Auth.Authorization.ShouldRefresh` (exhibited by `Auth.ShouldRefreshDisagreesWithDoc`) | `Auth.Authorization.ShouldRefreshAsDocumented` (`Auth.AsDocumentedWindow`) |

Nothing in the crate calls `should_refresh`. The model therefore keeps the literal predicate as the one that describes the code, and proves the documented predicate beside it.

## Left out

- Customer.PriceFromStr: models the corrected `$` strip. On text whose first character is not ASCII (such as `"€1"`) it returns `Err(InvalidNumber)`, where src/customer.rs:148 panics; `StripDollarAsWritten` models the panic.
- Network transport is a parameter: the `reqwest` send, await and `text()` (src/auth.rs:39-49, src/client.rs:52-58) and `ClientBuilder::build`. A build failure is not modelled, so `FromAuthorization` fails only on the header value. The HTTP status is never checked by the code, and the model has no status either.
- `SystemTime::now()` is a parameter (`receivedAt`, `now`). Time is whole seconds: sub-second precision and the panic of `SystemTime + Duration` on overflow are not modelled.
- JSON text is not modelled: `serde_json::to_string` and `from_str` work on JSON values here. Numbers are integers only. A derived `Deserialize` also accepts a struct written as an array, and a unit variant written as a one-key map. Neither form is modelled.
- Client.Client.Execute: response text that is not JSON is an exchange that yields no JSON, so it gives `TransportFailed`; the code fails it at `serde_json::from_str` (src/client.rs:59), the same place where JSON of the wrong shape fails. `DecodeFailed` covers only the latter.
- The date codecs `parse_date`, `parse_short_date`, `unparse_date` and `unparse_short_date` (src/customer.rs:192-222) are left out. They are `chrono` format strings.
- The `Service` record, its four variants, `Services` and `Data::proxy` (src/customer.rs:26-136) are left out. Their behaviour is serde's derived code and `#[serde(flatten)]`. Decoding `Services` is the parameter `decodeServices`.
- Queries.Url: `str::parse::<Url>` normalizes its input (percent-encoding, dot segments), so the parsed URL's text is the prefix followed by the path only for paths that need no normalization. The one path in the crate, `/service`, needs none.
- URL validity (src/client.rs:98) and header-value validity (src/client.rs:70) are the parameters `validUrl` and `validHeaderValue`.
- The client's default headers are kept on `Client` and handed to `transport` with each request. How `reqwest` merges them into the request it sends is not modelled.
- Customer.ParsePrice: an overflow of `value *= 100` or `value += …` (a whole part above 42949672) is the error `Overflow`. The code panics there in a debug build and wraps in a release build; the wrapped value is not modelled. The parser also strips `$` by character (`Customer.StripDollar`): on text whose first character is not ASCII the code panics at src/customer.rs:148, and the model returns `Err(InvalidNumber)` instead (see Findings).
- Error values carry only their kind, not the `anyhow` message.
- The derived `Serialize`/`Deserialize` of `Authorization` itself (src/auth.rs:14-18) is left out.
- `into_client` (src/auth.rs:65-67) only calls `try_from`, which is `FromAuthorization`.
- `src/main.rs` (argument parsing, password prompt, printing) and `src/lib.rs` (re-exports) are not part of this model.

=== FILE: auth.dfy ===
/**
 * Authorization with the account API (src/auth.rs): the login request, the
 * decoding of the login response into an `Authorization`, the token accessor,
 * and the expiry arithmetic with the refresh predicate. Time is a whole number
 * of seconds, and the current time is passed in rather than read from a clock.
 */
module Auth {
  import opened Wrappers
  import opened Decimal
  import opened Json
  import opened Http

  const LOGIN_URL: string := "https://my.exetel.com.au/api/auth/postLogin"
  const ORIGIN_URL: string := "https://my.exetel.com.au"
  const REFERER_URL: string := "https://my.exetel.com.au/login"

  /** `REFRESH_WINDOW`: five minutes, in seconds. */
  const REFRESH_WINDOW: nat := 5 * 60

  /* --------------------------------------------------------- login request */

  /** An authorization token; serialized transparently as its string. */
  datatype Token = Token(text: string) {
    /** `Display` shows the string and nothing else. */
    function ToString(): string {
      text
    }

    function ToJson(): Json {
      JString(text)
    }
  }

  /** The login request body, fields in declaration order. */
  datatype LoginQuery = LoginQuery(accessToken: Option<Token>, password: string, persistLogin: bool, username: string) {
    /**
     * The derived `Serialize`: "accessToken" (renamed), "password",
     * "persistLogin" (renamed), "username". `skip_serializing_if =
     * "Option::is_some"` drops "accessToken" when a token IS present, so an
     * absent token is sent as `null`.
     */
    function ToJson(): Json {
      JObject(
        (if accessToken.Some? then [] else [("accessToken", JNull)])
        + [("password", JString(password)), ("persistLogin", JBool(persistLogin)), ("username", JString(username))])
    }
  }

  /** `Query::new`: the two credentials, everything else at its default. */
  function NewLoginQuery(username: string, password: string): (q: LoginQuery)
    ensures q.username == username && q.password == password
    ensures q.accessToken == None && !q.persistLogin
  {
    LoginQuery(None, password, false, username)
  }

  /** The POST that `authenticate_with` sends: fixed URL, four fixed headers, the login body. */
  function LoginRequest(username: string, password: string): (r: Request)
    ensures r.verb == Post && r.url == LOGIN_URL && r.body == Some(NewLoginQuery(username, password).ToJson())
    ensures r.body.value.JObject?
    ensures Lookup(r.body.value.fields, "username") == Some(JString(username))
    ensures Lookup(r.body.value.fields, "password") == Some(JString(password))
    ensures r.headers == [(ORIGIN, ORIGIN_URL), (REFERER, REFERER_URL), (ACCEPT, APPLICATION_JSON), (CONTENT_TYPE, APPLICATION_JSON)]
  {
    var body := NewLoginQuery(username, password).ToJson();
    LoginBodyCredentials(username, password);
    Request(
      Post, LOGIN_URL,
      [(ORIGIN, ORIGIN_URL), (REFERER, REFERER_URL), (ACCEPT, APPLICATION_JSON), (CONTENT_TYPE, APPLICATION_JSON)],
      Some(body))
  }

  /** A fresh login body always carries `"accessToken": null`, then the credentials, in this order. */
  lemma LoginBodyShape(username: string, password: string)
    ensures NewLoginQuery(username, password).ToJson()
            == JObject([("accessToken", JNull), ("password", JString(password)),
                        ("persistLogin", JBool(false)), ("username", JString(username))])
  {
  }

  /** The credentials of a fresh login body are found under their own keys. */
  lemma LoginBodyCredentials(username: string, password: string)
    ensures NewLoginQuery(username, password).ToJson().JObject?
    ensures Lookup(NewLoginQuery(username, password).ToJson().fields, "username") == Some(JString(username))
    ensures Lookup(NewLoginQuery(username, password).ToJson().fields, "password") == Some(JString(password))
  {
    var fields := NewLoginQuery(username, password).ToJson().fields;
    LoginBodyShape(username, password);
    LookupDistinct(fields, 1);
    LookupDistinct(fields, 3);
  }

  /** The field is skipped exactly when a token is present: a present token is never sent. */
  lemma LoginBodySkipsPresentToken(q: LoginQuery)
    ensures q.accessToken.Some? <==> "accessToken" !in Keys(q.ToJson().fields)
  {
    var keys := Keys(q.ToJson().fields);
    if q.accessToken.None? {
      assert keys[0] == "accessToken";
    } else {
      assert keys == ["password", "persistLogin", "username"];
    }
  }

  /* -------------------------------------------------------- login response */

  /** How the token is to be presented: only `Bearer` exists. */
  datatype TokenType = Bearer

  /** The login response; keys are the Rust field names except `persistLogin`. */
  datatype Response = Response(tokenType: TokenType, expiresIn: U64, accessToken: Token, refreshToken: Token, persistLogin: bool) {
    /** The derived `Serialize`. */
    function ToJson(): Json {
      JObject([
        ("token_type", JString("Bearer")),
        ("expires_in", JNumber(expiresIn)),
        ("access_token", accessToken.ToJson()),
        ("refresh_token", refreshToken.ToJson()),
        ("persistLogin", JBool(persistLogin))])
    }
  }

  datatype AuthError = MalformedResponse

  function DecodeTokenType(member: Option<Json>): Option<TokenType> {
    if member == Some(JString("Bearer")) then Some(Bearer) else None
  }

  function DecodeU64(member: Option<Json>): Option<U64> {
    match member
    case Some(JNumber(n)) => if 0 <= n <= U64_MAX then Some(n) else None
    case _ => None
  }

  function DecodeToken(member: Option<Json>): Option<Token> {
    match member
    case Some(JString(s)) => Some(Token(s))
    case _ => None
  }

  function DecodeBool(member: Option<Json>): Option<bool> {
    match member
    case Some(JBool(b)) => Some(b)
    case _ => None
  }

  /**
   * The derived `Deserialize` of `Response` on an object: each of the five
   * keys exactly once with a value of its type; other keys are ignored.
   */
  function DecodeResponse(j: Json): (r: Result<Response, AuthError>)
    ensures r.Ok? ==> j.JObject?
    ensures r.Ok? ==> Lookup(j.fields, "token_type") == Some(JString("Bearer"))
                      && Lookup(j.fields, "expires_in") == Some(JNumber(r.value.expiresIn))
                      && Lookup(j.fields, "access_token") == Some(JString(r.value.accessToken.text))
                      && Lookup(j.fields, "refresh_token") == Some(JString(r.value.refreshToken.text))
                      && Lookup(j.fields, "persistLogin") == Some(JBool(r.value.persistLogin))
    ensures j.JObject? && Lookup(j.fields, "token_type") == Some(JString("Bearer"))
            && DecodeU64(Lookup(j.fields, "expires_in")).Some?
            && DecodeToken(Lookup(j.fields, "access_token")).Some?
            && DecodeToken(Lookup(j.fields, "refresh_token")).Some?
            && DecodeBool(Lookup(j.fields, "persistLogin")).Some?
            ==> r.Ok?
  {
    if !j.JObject? then Err(MalformedResponse)
    else
      var f := j.fields;
      DecodeMembers(Lookup(f, "token_type"), Lookup(f, "expires_in"), Lookup(f, "access_token"),
                    Lookup(f, "refresh_token"), Lookup(f, "persistLogin"))
  }

  /** The visitor's last step: a `Response` when each of the five members decodes to its field's type. */
  function DecodeMembers(tokenType: Option<Json>, expiresIn: Option<Json>, accessToken: Option<Json>,
                         refreshToken: Option<Json>, persistLogin: Option<Json>): Result<Response, AuthError>
  {
    match (DecodeTokenType(tokenType), DecodeU64(expiresIn), DecodeToken(accessToken),
           DecodeToken(refreshToken), DecodeBool(persistLogin))
    case (Some(t), Some(e), Some(a), Some(x), Some(p)) => Ok(Response(t, e, a, x, p))
    case _ => Err(MalformedResponse)
  }

  /** The five members a response serializes to decode back to it. */
  lemma MembersRoundTrip(r: Response)
    ensures DecodeMembers(Some(JString("Bearer")), Some(JNumber(r.expiresIn)), Some(JString(r.accessToken.text)),
                          Some(JString(r.refreshToken.text)), Some(JBool(r.persistLogin))) == Ok(r)
  {
    assert r.tokenType == Bearer;
  }

  /** Each of the five serialized keys is found once, holding its field. */
  lemma ResponseMembers(r: Response)
    ensures Lookup(r.ToJson().fields, "token_type") == Some(JString("Bearer"))
    ensures Lookup(r.ToJson().fields, "expires_in") == Some(JNumber(r.expiresIn))
    ensures Lookup(r.ToJson().fields, "access_token") == Some(JString(r.accessToken.text))
    ensures Lookup(r.ToJson().fields, "refresh_token") == Some(JString(r.refreshToken.text))
    ensures Lookup(r.ToJson().fields, "persistLogin") == Some(JBool(r.persistLogin))
  {
    ResponseMember(r, 0);
    ResponseMember(r, 1);
    ResponseMember(r, 2);
    ResponseMember(r, 3);
    ResponseMember(r, 4);
  }

  lemma ResponseMember(r: Response, i: nat)
    requires i < 5
    ensures Lookup(r.ToJson().fields, r.ToJson().fields[i].0) == Some(r.ToJson().fields[i].1)
  {
    LookupDistinct(r.ToJson().fields, i);
  }

  /** A serialized response decodes to itself. */
  lemma ResponseRoundTrip(r: Response)
    ensures DecodeResponse(r.ToJson()) == Ok(r)
  {
    ResponseMembers(r);
    MembersRoundTrip(r);
  }

  /** A response with any other token type, or without one, is refused. */
  lemma ResponseNeedsBearer(j: Json)
    requires j.JObject? ==> Lookup(j.fields, "token_type") != Some(JString("Bearer"))
    ensures DecodeResponse(j) == Err(MalformedResponse)
  {
  }

  /* --------------------------------------------------------- authorization */

  /** The tokens together with the time (seconds) the login response arrived. */
  datatype Authorization = Authorization(lastRefreshed: nat, lastResponse: Response) {
    /** `access_token`: the token, shown by `Display`. */
    function AccessToken(): Token {
      lastResponse.accessToken
    }

    /** `expires_at`: `expires_in` seconds after the response arrived. */
    function ExpiresAt(): (t: nat)
      ensures t - lastRefreshed == lastResponse.expiresIn
    {
      lastRefreshed + lastResponse.expiresIn
    }

    /** `should_refresh` as written: `expires_at() + REFRESH_WINDOW > now`. */
    function ShouldRefresh(now: nat): bool {
      ExpiresAt() + REFRESH_WINDOW > now
    }

    /** What the doc comment of `REFRESH_WINDOW` describes: less than five minutes of validity remain. */
    function ShouldRefreshAsDocumented(now: nat): bool {
      ExpiresAt() - now < REFRESH_WINDOW
    }
  }

  /**
   * The end of `authenticate_with`: the login response, decoded, stamped with
   * the time it was received.
   */
  function Authenticate(response: Json, receivedAt: nat): (r: Result<Authorization, AuthError>)
    ensures r.Ok? <==> DecodeResponse(response).Ok?
    ensures r.Ok? ==> r.value.lastRefreshed == receivedAt
    ensures r.Ok? ==> r.value.lastResponse == DecodeResponse(response).value
  {
    var decoded :- DecodeResponse(response);
    Ok(Authorization(receivedAt, decoded))
  }

  /** After a login, `access_token()` shows exactly the "access_token" string of the response. */
  lemma AuthenticatedToken(response: Json, receivedAt: nat)
    requires Authenticate(response, receivedAt).Ok?
    ensures Lookup(response.fields, "access_token")
            == Some(JString(Authenticate(response, receivedAt).value.AccessToken().ToString()))
    ensures Authenticate(response, receivedAt).value.ExpiresAt()
            == receivedAt + DecodeU64(Lookup(response.fields, "expires_in")).value
  {
  }

  /** The literal comparison: a refresh is asked for until five minutes AFTER expiry, and never after that. */
  lemma ShouldRefreshWindow(a: Authorization, now: nat)
    ensures a.ShouldRefresh(now) <==> now < a.lastRefreshed + a.lastResponse.expiresIn + 300
    ensures now <= a.lastRefreshed ==> a.ShouldRefresh(now)
  {
  }

  /** Earlier times keep the predicate: if it holds now, it held before. */
  lemma ShouldRefreshAntitone(a: Authorization, earlier: nat, later: nat)
    requires earlier <= later && a.ShouldRefresh(later)
    ensures a.ShouldRefresh(earlier)
  {
  }

  /** A longer lifetime keeps the predicate: it is monotone in `expires_in`. */
  lemma ShouldRefreshMonotoneInLifetime(a: Authorization, b: Authorization, now: nat)
    requires a.lastRefreshed == b.lastRefreshed
    requires a.lastResponse.expiresIn <= b.lastResponse.expiresIn
    requires a.ShouldRefresh(now)
    ensures b.ShouldRefresh(now)
  {
  }

  /** The documented predicate holds from five minutes before expiry on, and then stays true. */
  lemma AsDocumentedWindow(a: Authorization, now: nat, later: nat)
    ensures a.ShouldRefreshAsDocumented(now) <==> a.ExpiresAt() < now + REFRESH_WINDOW
    ensures now <= later && a.ShouldRefreshAsDocumented(now) ==> a.ShouldRefreshAsDocumented(later)
  {
  }

  /**
   * The two predicates agree only within five minutes either side of expiry:
   * a fresh hour-long token asks for a refresh at once and a token ten minutes
   * stale does not.
   */
  lemma ShouldRefreshDisagreesWithDoc(a: Authorization, now: nat)
    ensures a.ShouldRefresh(now) == a.ShouldRefreshAsDocumented(now)
            <==> a.ExpiresAt() < now + REFRESH_WINDOW < a.ExpiresAt() + 2 * REFRESH_WINDOW
    ensures var issued := Authorization(0, Response(Bearer, 3600, Token("abc"), Token("xyz"), false));
            issued.ShouldRefresh(0) && !issued.ShouldRefreshAsDocumented(0)
            && !issued.ShouldRefresh(4200) && issued.ShouldRefreshAsDocumented(4200)
  {
  }

  /** A login response in the format the code expects, received at time `t`. */
  lemma AuthenticateExample(t: nat)
    ensures var response := JObject([
              ("token_type", JString("Bearer")), ("expires_in", JNumber(3600)),
              ("access_token", JString("abc")), ("refresh_token", JString("xyz")),
              ("persistLogin", JBool(false))]);
            Authenticate(response, t) == Ok(Authorization(t, Response(Bearer, 3600, Token("abc"), Token("xyz"), false)))
  {
    var r := Response(Bearer, 3600, Token("abc"), Token("xyz"), false);
    ResponseRoundTrip(r);
  }

  /** What the example authorization shows and when it expires. */
  lemma AuthorizationExample(t: nat)
    ensures var a := Authorization(t, Response(Bearer, 3600, Token("abc"), Token("xyz"), false));
            a.AccessToken().ToString() == "abc" && a.ExpiresAt() == t + 3600 && a.ShouldRefresh(t)
  {
  }
}

=== FILE: client.dfy ===
/**
 * The authenticated client of src/client.rs, as a description of the requests
 * it would send. Sending is a parameter: `transport` maps the client's default
 * headers and a request to the JSON its response text parses to, or None when
 * sending fails. Response text
 * that is not JSON therefore counts as a transport failure here, where the code
 * reports it as a decoding error; `DecodeFailed` is JSON that does not match the
 * expected type. `validUrl` and `validHeaderValue` stand for the `url` and
 * `http` crates' parsers.
 */
module Client {
  import opened Wrappers
  import opened Json
  import opened Http
  import opened Queries
  import opened Customer
  import opened Auth

  const SERVICES_URL: string := "https://webservices.api.exetel.com.au/v1/service"

  datatype ClientError =
    | InvalidUrl
    | InvalidHeaderValue
    | TransportFailed
    | DecodeFailed

  /** `post`: a POST carrying the body, with a JSON content type. */
  function PostRequest(url: string, body: Json): Request {
    Request(Post, url, [(CONTENT_TYPE, APPLICATION_JSON)], Some(body))
  }

  /** `get`: a GET without a body, with a plain-text content type. */
  function GetRequest(url: string): Request {
    Request(Get, url, [(CONTENT_TYPE, TEXT_PLAIN)], None)
  }

  /** `request`: every request asks for JSON back before it is sent. */
  function WithAccept(request: Request): Request {
    request.(headers := request.headers + [(ACCEPT, APPLICATION_JSON)])
  }

  /** An authorization together with the headers sent on every request. */
  datatype Client = Client(authorization: Authorization, defaultHeaders: seq<Header>) {

    /**
     * `query` up to the point of sending: POST when the query has a body,
     * GET otherwise, to `url()`, always with `Accept: application/json`.
     */
    function Prepare(q: Query, validUrl: string -> bool): (r: Result<Request, ClientError>)
      ensures r.Err? <==> !validUrl(URL_PREFIX + q.path)
      ensures r.Ok? ==> r.value.url == URL_PREFIX + q.path && r.value.body == q.body
      ensures r.Ok? ==> r.value.verb == (if q.body.Some? then Post else Get)
      ensures r.Ok? ==> r.value.headers
                        == [(CONTENT_TYPE, if q.body.Some? then APPLICATION_JSON else TEXT_PLAIN), (ACCEPT, APPLICATION_JSON)]
    {
      match Url(q, validUrl)
      case Err(_) => Err(InvalidUrl)
      case Ok(url) =>
        if q.body.Some? then Ok(WithAccept(PostRequest(url, q.body.value)))
        else Ok(WithAccept(GetRequest(url)))
    }

    /**
     * `query`: send the prepared request, with the client's default headers,
     * and decode the JSON that comes back.
     */
    function Execute<R>(q: Query, validUrl: string -> bool, transport: (seq<Header>, Request) -> Option<Json>,
                        decode: Json -> Option<R>): (r: Result<R, ClientError>)
      ensures r.Ok? ==> Prepare(q, validUrl).Ok? && transport(defaultHeaders, Prepare(q, validUrl).value).Some?
                        && decode(transport(defaultHeaders, Prepare(q, validUrl).value).value) == Some(r.value)
      ensures Prepare(q, validUrl).Err? ==> r == Err(InvalidUrl)
      ensures Prepare(q, validUrl).Ok? && transport(defaultHeaders, Prepare(q, validUrl).value).None? ==> r == Err(TransportFailed)
      ensures Prepare(q, validUrl).Ok? && transport(defaultHeaders, Prepare(q, validUrl).value).Some?
              ==> var decoded := decode(transport(defaultHeaders, Prepare(q, validUrl).value).value);
                  r == if decoded.Some? then Ok(decoded.value) else Err(DecodeFailed)
    {
      var request :- Prepare(q, validUrl);
      match transport(defaultHeaders, request)
      case None => Err(TransportFailed)
      case Some(response) =>
        match decode(response)
        case None => Err(DecodeFailed)
        case Some(value) => Ok(value)
    }

    /** `services`: run `GetServices` and unwrap the `{ data }` envelope of its answer. */
    function Services<S>(validUrl: string -> bool, transport: (seq<Header>, Request) -> Option<Json>,
                         decodeServices: Json -> Option<S>): Result<S, ClientError>
    {
      var envelope :- Execute(GetServices(), validUrl, transport, (j: Json) => DecodeData(j, decodeServices));
      Ok(envelope.Unwrap())
    }
  }

  /**
   * `TryFrom<Authorization>`: the one default header `Authorization: Bearer
   * <token>`, the authorization kept as it is; it fails only when that text is
   * not a valid header value.
   */
  function FromAuthorization(authorization: Authorization, validHeaderValue: string -> bool): (r: Result<Client, ClientError>)
    ensures r.Ok? <==> validHeaderValue("Bearer " + authorization.lastResponse.accessToken.text)
    ensures r.Ok? ==> r.value.authorization == authorization
    ensures r.Ok? ==> r.value.defaultHeaders == [(AUTHORIZATION, "Bearer " + authorization.lastResponse.accessToken.text)]
  {
    var bearer := "Bearer " + authorization.AccessToken().ToString();
    if validHeaderValue(bearer) then Ok(Client(authorization, [(AUTHORIZATION, bearer)])) else Err(InvalidHeaderValue)
  }

  /** A query that keeps the default `body()` is always sent as a GET without a body. */
  lemma DefaultBodyMeansGet(c: Client, path: string, validUrl: string -> bool)
    requires validUrl(URL_PREFIX + path)
    ensures c.Prepare(Query(path, DefaultBody()), validUrl)
            == Ok(Request(Get, URL_PREFIX + path, [(CONTENT_TYPE, TEXT_PLAIN), (ACCEPT, APPLICATION_JSON)], None))
  {
  }

  /** `GetServices` is a GET of the services URL. */
  lemma GetServicesRequest(c: Client, validUrl: string -> bool)
    requires validUrl(SERVICES_URL)
    ensures c.Prepare(GetServices(), validUrl)
            == Ok(Request(Get, SERVICES_URL, [(CONTENT_TYPE, TEXT_PLAIN), (ACCEPT, APPLICATION_JSON)], None))
  {
    assert URL_PREFIX + GetServices().path == SERVICES_URL;
  }

  /**
   * `services()` yields exactly the value inside the envelope that answers the
   * `GetServices` request, and fails when any step does.
   */
  lemma ServicesUnwrapsEnvelope<S>(c: Client, validUrl: string -> bool, transport: (seq<Header>, Request) -> Option<Json>,
                                  decodeServices: Json -> Option<S>, s: S)
    ensures c.Services(validUrl, transport, decodeServices) == Ok(s)
            <==> validUrl(SERVICES_URL)
                 && var request := Request(Get, SERVICES_URL, [(CONTENT_TYPE, TEXT_PLAIN), (ACCEPT, APPLICATION_JSON)], None);
                    transport(c.defaultHeaders, request).Some? && DecodeData(transport(c.defaultHeaders, request).value, decodeServices) == Some(Data(s))
  {
    assert URL_PREFIX + GetServices().path == SERVICES_URL;
    if validUrl(SERVICES_URL) {
      GetServicesRequest(c, validUrl);
    }
  }

  /** A client built from the example login carries `Authorization: Bearer abc`. */
  lemma ClientExample(t: nat, validHeaderValue: string -> bool)
    requires validHeaderValue("Bearer abc")
    ensures var a := Authorization(t, Response(Bearer, 3600, Token("abc"), Token("xyz"), false));
            FromAuthorization(a, validHeaderValue) == Ok(Client(a, [(AUTHORIZATION, "Bearer abc")]))
  {
    assert "Bearer " + "abc" == "Bearer abc";
  }
}

=== FILE: customer.dfy ===
/**
 * The customer queries of src/customer.rs: the `{ data }` envelope, the
 * `GetServices` query, and the two scalar codecs used by service records,
 * `Price` (text such as `$12.34` <-> whole cents) and `Percentage`.
 */
module Customer {
  import opened Wrappers
  import opened Decimal
  import opened Strings
  import opened Json
  import opened Queries

  /** The one-field wire envelope `{ "data": ... }`. */
  datatype Data<T> = Data(data: T) {
    /** `Data::unwrap`: the wrapped value itself. */
    function Unwrap(): (r: T)
      ensures this == Data(r)
    {
      data
    }
  }

  /**
   * The derived `Deserialize` of `Data<T>` on an object: the member under
   * "data", which must occur exactly once, decoded by `decodeInner`; other
   * members are ignored.
   */
  function DecodeData<T>(j: Json, decodeInner: Json -> Option<T>): (r: Option<Data<T>>)
    ensures r.Some? ==> j.JObject? && multiset(Keys(j.fields))["data"] == 1
    ensures r.Some? ==> ("data", Lookup(j.fields, "data").value) in j.fields
                        && decodeInner(Lookup(j.fields, "data").value) == Some(r.value.data)
    ensures j.JObject? && Lookup(j.fields, "data").Some? && decodeInner(Lookup(j.fields, "data").value).Some?
            ==> r == Some(Data(decodeInner(Lookup(j.fields, "data").value).value))
  {
    if !j.JObject? then None
    else
      var member :- Lookup(j.fields, "data");
      var inner :- decodeInner(member);
      Some(Data(inner))
  }

  /** An envelope decodes to whatever its single "data" member decodes to, and unwrapping yields it. */
  lemma DataEnvelope<T>(v: Json, extra: seq<(string, Json)>, decodeInner: Json -> Option<T>)
    requires "data" !in Keys(extra)
    ensures DecodeData(JObject([("data", v)] + extra), decodeInner)
            == (if decodeInner(v).Some? then Some(Data(decodeInner(v).value)) else None)
    ensures decodeInner(v).Some? ==> DecodeData(JObject([("data", v)] + extra), decodeInner).value.Unwrap() == decodeInner(v).value
  {
    var fields := [("data", v)] + extra;
    assert fields[1..] == extra;
  }

  /** `GetServices`: path "/service", and `body()` left at the trait's default. */
  function GetServices(): Query {
    Query("/service", DefaultBody())
  }

  /* ---------------------------------------------------------------- Price */

  /** A price in whole cents, held in a `u32`. */
  datatype Price = Price(cents: U32) {
    /**
     * `Display` ("${}.{:02}" of cents / 100 and cents % 100); `Debug` and
     * `Into<String>` produce the same text.
     */
    function ToString(): (r: string)
      ensures |r| >= 5 && r[0] == '$' && r[|r| - 3] == '.'
      ensures AllDigits(r[1..|r| - 3]) && AllDigits(r[|r| - 2..])
      ensures r[1..|r| - 3] == Dec(cents / 100) && r[|r| - 2..] == Pad2(cents % 100)
      ensures Value(r[1..|r| - 3]) * 100 + Value(r[|r| - 2..]) == cents
    {
      var r := "$" + Dec(cents / 100) + "." + Pad2(cents % 100);
      assert r[1..|r| - 3] == Dec(cents / 100);
      assert r[|r| - 2..] == Pad2(cents % 100);
      r
    }

    /** `#[serde(into = "String")]`: a price is sent as its display text. */
    function ToJson(): Json {
      JString(ToString())
    }
  }

  datatype PriceError =
    | InvalidNumber  // one of the first two groups is not a `u32` literal: the `?` on `parse::<u32>()`
    | Overflow       // `value *= 100` or `value += ...` leaves `u32`: a panic in a debug build

  /** The leading-`$` test with the prefix stripped as `strip_prefix('$')` does it: one `$` at most. */
  function StripDollar(text: string): (r: string)
    ensures text == if |text| > 0 && text[0] == '$' then "$" + r else r
  {
    if |text| > 0 && text[0] == '$' then text[1..] else text
  }

  /**
   * The leading-`$` test as written, `text.len() >= 1 && &text[0..1] == "$"`:
   * the slice takes one BYTE, so it panics (None) whenever the first character
   * needs more than one byte in UTF-8; otherwise it agrees with StripDollar.
   */
  function StripDollarAsWritten(text: string): (r: Option<string>)
    ensures r.None? <==> |text| > 0 && text[0] as int >= 0x80
    ensures r.Some? ==> r.value == StripDollar(text)
  {
    if |text| >= 1 then
      if text[0] as int >= 0x80 then None
      else if text[0] == '$' then Some(text[1..]) else Some(text)
    else Some(text)
  }

  /** `text.split('.')` collected into `amounts`, with "0" pushed when there is no `.`. */
  function Amounts(text: string): (r: seq<string>)
    ensures |r| >= 2
  {
    var parts := Split(text, '.');
    if |parts| == 1 then parts + ["0"] else parts
  }

  /**
   * The loop of `Price::from_str` over the first two groups: `value` starts at
   * 0 and each group does `value *= 100; value += group`, failing on an
   * overflow or on a group that is not a `u32` literal, in the order the loop
   * meets them.
   */
  function Accumulate(whole: string, frac: string): Result<Price, PriceError> {
    match ParseU32(whole)
    case None => Err(InvalidNumber)
    case Some(w) =>
      if w * 100 > U32_MAX then Err(Overflow)
      else
        match ParseU32(frac)
        case None => Err(InvalidNumber)
        case Some(f) =>
          if w * 100 + f > U32_MAX then Err(Overflow) else Ok(Price(w * 100 + f))
  }

  /** What `Price::from_str` computes: only the first two groups are ever read. */
  function PriceFromStr(text: string): Result<Price, PriceError> {
    var amounts := Amounts(StripDollar(text));
    Accumulate(amounts[0], amounts[1])
  }

  /** `Price::from_str` (and `TryFrom<String>`, which calls it). */
  method ParsePrice(text: string) returns (r: Result<Price, PriceError>)
    ensures r == PriceFromStr(text)
  {
    var rest := StripDollar(text);
    var value: U32 := 0;
    var amounts := Split(rest, '.');
    if |amounts| == 1 {
      amounts := amounts + ["0"];
    }
    var i := 0;
    while i < |amounts| && i < 2
      invariant 0 <= i <= 2
      invariant amounts == Amounts(rest)
      invariant i == 0 ==> value == 0
      invariant i >= 1 ==> ParseU32(amounts[0]).Some?
      invariant i == 1 ==> value == ParseU32(amounts[0]).value
      invariant i == 2 ==> ParseU32(amounts[1]).Some?
                           && value == ParseU32(amounts[0]).value * 100 + ParseU32(amounts[1]).value
    {
      if value * 100 > U32_MAX {
        return Err(Overflow);
      }
      value := value * 100;
      var amount := ParseU32(amounts[i]);
      if amount.None? {
        return Err(InvalidNumber);
      }
      if value + amount.value > U32_MAX {
        return Err(Overflow);
      }
      value := value + amount.value;
      i := i + 1;
    }
    return Ok(Price(value));
  }

  /** `#[serde(try_from = "String")]`: a price is read from a JSON string by `from_str`. */
  function PriceFromJson(j: Json): (r: Option<Price>)
    ensures r.Some? ==> j.JString? && PriceFromStr(j.s) == Ok(r.value)
    ensures j.JString? && PriceFromStr(j.s).Ok? ==> r.Some?
  {
    if j.JString? && PriceFromStr(j.s).Ok? then Some(PriceFromStr(j.s).value) else None
  }

  /** A `$` is only ever looked for at the very start of the text. */
  lemma StripDollarBeforeDot(whole: string, rest: string)
    ensures StripDollar(whole + "." + rest) == StripDollar(whole) + "." + rest
  {
    if |whole| > 0 {
      assert (whole + "." + rest)[0] == whole[0];
      assert (whole + "." + rest)[1..] == whole[1..] + "." + rest;
    }
  }

  /** Text of at least two groups: the first two groups decide the result, whatever follows. */
  lemma {:induction false} PriceFromGroups(whole: string, frac: string, tail: string)
    requires '.' !in whole && '.' !in frac
    requires tail == [] || tail[0] == '.'
    ensures PriceFromStr(whole + "." + frac + tail) == Accumulate(StripDollar(whole), frac)
  {
    StripDollarBeforeDot(whole, frac + tail);
    assert whole + "." + frac + tail == whole + "." + (frac + tail);
    var stripped := StripDollar(whole);
    assert '.' !in stripped by {
      if |whole| > 0 && whole[0] == '$' {
        assert stripped == whole[1..];
      }
    }
    SplitAfter(stripped, frac + tail, '.');
    if tail == [] {
      assert frac + tail == frac;
      SplitWithout(frac, '.');
    } else {
      assert frac + tail == frac + "." + tail[1..];
      SplitAfter(frac, tail[1..], '.');
    }
  }

  /**
   * Two `.`-free groups, the first not starting with `$`: the price is
   * `whole * 100 + frac`, the second group added unscaled, and it exists
   * exactly when both groups are `u32` literals and the sum fits a `u32`.
   */
  lemma PriceTwoGroups(whole: string, frac: string)
    requires '.' !in whole && '.' !in frac
    requires |whole| == 0 || whole[0] != '$'
    ensures PriceFromStr(whole + "." + frac).Ok?
            <==> ParseU32(whole).Some? && ParseU32(frac).Some?
                 && ParseU32(whole).value * 100 + ParseU32(frac).value <= U32_MAX
    ensures PriceFromStr(whole + "." + frac).Ok?
            ==> PriceFromStr(whole + "." + frac).value.cents == ParseU32(whole).value * 100 + ParseU32(frac).value
  {
    PriceFromGroups(whole, frac, []);
    assert whole + "." + frac + [] == whole + "." + frac;
  }

  /** With no `.`, the missing fraction counts as "0": the value is whole units, with or without one `$`. */
  lemma PriceWholeOnly(whole: string)
    requires '.' !in whole
    requires |whole| == 0 || whole[0] != '$'
    ensures PriceFromStr("$" + whole) == PriceFromStr(whole)
    ensures PriceFromStr(whole).Ok? <==> ParseU32(whole).Some? && ParseU32(whole).value * 100 <= U32_MAX
    ensures PriceFromStr(whole).Ok? ==> PriceFromStr(whole).value.cents == ParseU32(whole).value * 100
  {
    SplitWithout(whole, '.');
    assert ("$" + whole)[1..] == whole;
    assert ParseU32("0") == Some(0) by {
      assert Value("0") == Value("0"[..0]) * 10 + 0;
    }
  }

  /** Groups after the second are never looked at, valid or not. */
  lemma PriceIgnoresExtraGroups(whole: string, frac: string, extra: string)
    requires '.' !in whole && '.' !in frac
    ensures PriceFromStr(whole + "." + frac + "." + extra) == PriceFromStr(whole + "." + frac)
  {
    var tail := "." + extra;
    var longer, shorter := whole + "." + frac + tail, whole + "." + frac + [];
    assert whole + "." + frac + "." + extra == longer;
    assert whole + "." + frac == shorter;
    PriceFromGroups(whole, frac, tail);
    PriceFromGroups(whole, frac, []);
  }

  /** One leading `$` makes no difference to the result. */
  lemma PriceOneDollar(text: string)
    requires |text| == 0 || text[0] != '$'
    ensures PriceFromStr("$" + text) == PriceFromStr(text)
  {
    assert ("$" + text)[1..] == text;
  }

  /** Only one `$` is stripped: a second one is left in the first group, which then is no number. */
  lemma PriceDoubleDollar(text: string)
    ensures PriceFromStr("$$" + text) == Err(InvalidNumber)
  {
    var rest := StripDollar("$$" + text);
    assert rest == "$" + text;
    SplitJoin(rest, '.');
    var first := Split(rest, '.')[0];
    assert first[0] == '$' by {
      assert rest[0] == '$';
    }
  }

  /** Display then parse gives back every `u32` price exactly. */
  lemma PriceRoundTrip(p: Price)
    ensures PriceFromStr(p.ToString()) == Ok(p)
    ensures PriceFromJson(p.ToJson()) == Some(p)
  {
    PriceOfDisplay(p.ToString(), p.cents / 100, p.cents % 100);
  }

  /** Text shaped like a price's display, `$` then `Dec(w)`, `.` and `Pad2(f)`, parses to `w * 100 + f` cents. */
  lemma PriceOfDisplay(text: string, w: U32, f: nat)
    requires f < 100 && w * 100 + f <= U32_MAX
    requires |text| >= 5 && text[0] == '$' && text[|text| - 3] == '.'
    requires text[1..|text| - 3] == Dec(w) && text[|text| - 2..] == Pad2(f)
    ensures PriceFromStr(text) == Ok(Price(w * 100 + f))
  {
    var whole, frac := text[..|text| - 3], text[|text| - 2..];
    assert text == whole + "." + frac + [];
    assert StripDollar(whole) == Dec(w) by {
      assert whole[1..] == text[1..|text| - 3];
    }
    assert '.' !in whole by {
      forall i | 0 <= i < |whole| ensures whole[i] != '.' {
        if i > 0 { assert whole[i] == Dec(w)[i - 1]; }
      }
    }
    DecRoundTrip(w);
    Pad2RoundTrip(f);
    PriceOfText(text, whole, frac, [], w, f);
  }

  /**
   * A text whose first two groups are `u32` literals `w` and `f` with
   * `w * 100 + f` in range parses to that many cents, whatever follows.
   */
  lemma PriceOfText(text: string, whole: string, frac: string, tail: string, w: U32, f: U32)
    requires '.' !in whole && '.' !in frac && (tail == [] || tail[0] == '.')
    requires text == whole + "." + frac + tail
    requires ParseU32(StripDollar(whole)) == Some(w) && ParseU32(frac) == Some(f) && w * 100 + f <= U32_MAX
    ensures PriceFromStr(text) == Ok(Price(w * 100 + f))
  {
    PriceFromGroups(whole, frac, tail);
    AccumulateInRange(StripDollar(whole), frac, w, f);
  }

  /** Two `u32` literals whose sum `w * 100 + f` fits give that price. */
  lemma AccumulateInRange(whole: string, frac: string, w: U32, f: U32)
    requires ParseU32(whole) == Some(w) && ParseU32(frac) == Some(f) && w * 100 + f <= U32_MAX
    ensures Accumulate(whole, frac) == Ok(Price(w * 100 + f))
  {
  }

  /** "$12.34" is 1234 cents. */
  lemma PriceExampleDollarsAndCents()
    ensures PriceFromStr("$12.34") == Ok(Price(1234))
  {
    DecRoundTrip(12);
    DecRoundTrip(34);
    assert Dec(12) == "12" == StripDollar("$12") && Dec(34) == "34";
    PriceOfText("$12.34", "$12", "34", [], 12, 34);
  }

  /** "12" and "$12" are both 1200 cents. */
  lemma PriceExampleWholeUnits()
    ensures PriceFromStr("12") == Ok(Price(1200)) && PriceFromStr("$12") == Ok(Price(1200))
  {
    assert Dec(12) == "12";
    DecRoundTrip(12);
    PriceWholeOnly("12");
    assert "$" + "12" == "$12";
  }

  /** "12.5" is 1205 cents, not 1250: the second group is added unscaled. */
  lemma PriceExampleUnscaledFraction()
    ensures PriceFromStr("12.5") == Ok(Price(1205))
  {
    DecRoundTrip(12);
    DecRoundTrip(5);
    assert Dec(12) == "12" == StripDollar("12") && Dec(5) == "5";
    PriceOfText("12.5", "12", "5", [], 12, 5);
  }

  /** "1.234" is 334 cents: a three-digit second group is added as it stands. */
  lemma PriceExampleLongFraction()
    ensures PriceFromStr("1.234") == Ok(Price(334))
  {
    DecRoundTrip(1);
    DecRoundTrip(234);
    assert Dec(1) == "1" == StripDollar("1") && Dec(234) == "234";
    PriceOfText("1.234", "1", "234", [], 1, 234);
  }

  /** "1.2.x" is 102 cents: the third group is never read. */
  lemma PriceExampleExtraGroup()
    ensures PriceFromStr("1.2.x") == Ok(Price(102))
  {
    DecRoundTrip(1);
    DecRoundTrip(2);
    assert Dec(1) == "1" == StripDollar("1") && Dec(2) == "2";
    PriceOfText("1.2.x", "1", "2", ".x", 1, 2);
  }

  /** Five cents display as "$0.05". */
  lemma PriceExampleDisplay()
    ensures Price(5).ToString() == "$0.05"
  {
  }

  /** Texts whose first or second group is no `u32` literal. */
  lemma PriceRejectExamples()
    ensures PriceFromStr("") == Err(InvalidNumber) && PriceFromStr("abc") == Err(InvalidNumber)
    ensures PriceFromStr("1.") == Err(InvalidNumber) && PriceFromStr(".5") == Err(InvalidNumber)
    ensures PriceFromStr("$$1") == Err(InvalidNumber)
  {
    assert Dec(1) == "1";
    DecRoundTrip(1);
    SplitWithout("", '.');
    ParseU32Rejects("");
    SplitWithout("abc", '.');
    ParseU32Rejects("abc");
    PriceFromGroups("1", "", []);
    assert "1" + "." + "" + [] == "1.";
    PriceFromGroups("", "5", []);
    assert "" + "." + "5" + [] == ".5";
    PriceDoubleDollar("1");
    assert "$$" + "1" == "$$1";
  }

  /**
   * The byte slice in the leading-`$` test panics on a price whose first
   * character is not ASCII, where stripping by character reports an ordinary
   * parse failure.
   */
  lemma NonAsciiFirstCharacter()
    ensures StripDollarAsWritten("\U{20AC}1") == None
    ensures PriceFromStr("\U{20AC}1") == Err(InvalidNumber)
  {
    var text := "\U{20AC}1";
    SplitWithout(text, '.');
    ParseU32Rejects(text);
  }

  /* ----------------------------------------------------------- Percentage */

  /** A percentage held in a `u32`; no bound of 100 is enforced. */
  datatype Percentage = Percentage(value: U32) {
    /** `Into<u32>`. */
    function ToU32(): U32 {
      value
    }

    /** `Display` ("{}%"); `Debug` produces the same text. */
    function ToString(): (r: string)
      ensures |r| >= 2 && r[|r| - 1] == '%'
      ensures r[..|r| - 1] == Dec(value)
      ensures ParseU32(r[..|r| - 1]) == Some(value)
    {
      DecRoundTrip(value);
      var r := Dec(value) + "%";
      assert r[..|r| - 1] == Dec(value);
      r
    }

    /** `#[serde(into = "u32")]`: sent as a bare number. */
    function ToJson(): Json {
      JNumber(value)
    }
  }

  /** `From<u32>`. */
  function PercentageFromU32(n: U32): Percentage {
    Percentage(n)
  }

  /** `#[serde(from = "u32")]`: read from a JSON number within `u32`. */
  function PercentageFromJson(j: Json): (r: Option<Percentage>)
    ensures r.Some? <==> j.JNumber? && 0 <= j.n <= U32_MAX
    ensures r.Some? ==> r.value.ToU32() == j.n
  {
    if j.JNumber? && 0 <= j.n <= U32_MAX then Some(PercentageFromU32(j.n)) else None
  }

  /** `From<u32>` and `Into<u32>` are inverse, and so are the wire encoding and decoding. */
  lemma PercentageRoundTrip(n: U32, p: Percentage)
    ensures PercentageFromU32(n).ToU32() == n
    ensures PercentageFromU32(p.ToU32()) == p
    ensures PercentageFromJson(p.ToJson()) == Some(p)
  {
  }

  lemma PercentageExample()
    ensures Percentage(42).ToString() == "42%"
  {
    assert Dec(42) == "42";
  }
}

=== FILE: decimal.dfy ===
/**
 * Unsigned machine integers and their decimal text form, as the codecs in
 * src/customer.rs use them: `u32::from_str` (an optional `+`, then one or more
 * ASCII digits, value at most 4294967295) and `{}` / `{:02}` formatting.
 */
module Decimal {
  import opened Wrappers

  const U32_MAX: int := 0xFFFF_FFFF
  const U64_MAX: int := 0xFFFF_FFFF_FFFF_FFFF

  /** Rust's `u32`. */
  type U32 = x: int | 0 <= x <= U32_MAX

  /** Rust's `u64`. */
  type U64 = x: int | 0 <= x <= U64_MAX

  predicate IsDigit(c: char) {
    '0' <= c <= '9'
  }

  predicate AllDigits(s: string) {
    forall i :: 0 <= i < |s| ==> IsDigit(s[i])
  }

  function DigitValue(c: char): (d: nat)
    requires IsDigit(c)
    ensures d < 10
  {
    c as int - '0' as int
  }

  function DigitChar(d: nat): (c: char)
    requires d < 10
    ensures IsDigit(c) && DigitValue(c) == d
  {
    ('0' as int + d) as char
  }

  /** The number a string of decimal digits denotes, most significant digit first. */
  function Value(s: string): nat
    requires AllDigits(s)
    decreases |s|
  {
    if s == [] then 0 else Value(s[..|s| - 1]) * 10 + DigitValue(s[|s| - 1])
  }

  /** `{}` on an unsigned integer: the shortest decimal numeral, no sign, no leading zero. */
  function Dec(n: nat): (r: string)
    ensures |r| > 0 && AllDigits(r) && Value(r) == n
    ensures r[0] == '0' <==> n == 0
    ensures n == 0 ==> r == "0"
    decreases n
  {
    if n < 10 then
      var r := [DigitChar(n)];
      assert r[..0] == [];
      r
    else
      var r := Dec(n / 10) + [DigitChar(n % 10)];
      assert r[..|r| - 1] == Dec(n / 10);
      r
  }

  /** `{:02}` on an integer below 100: exactly two digits, zero-padded. */
  function Pad2(n: nat): (r: string)
    requires n < 100
    ensures |r| == 2 && AllDigits(r) && Value(r) == n
  {
    var r := [DigitChar(n / 10), DigitChar(n % 10)];
    assert r[..1] == [DigitChar(n / 10)] && r[..1][..0] == [];
    assert Value(r[..1]) == n / 10;
    r
  }

  /** `u32::from_str`: an optional leading `+`, then at least one ASCII digit, value within `u32`. */
  function ParseU32(s: string): (r: Option<U32>)
    ensures r.Some? ==> |s| > 0
  {
    var digits := if |s| > 0 && s[0] == '+' then s[1..] else s;
    if |digits| > 0 && AllDigits(digits) && Value(digits) <= U32_MAX then Some(Value(digits)) else None
  }

  /** Formatting a `u32` with `{}` and parsing it back gives the same number. */
  lemma DecRoundTrip(n: U32)
    ensures ParseU32(Dec(n)) == Some(n)
  {
  }

  /** A two-digit zero-padded numeral parses back, leading zero included. */
  lemma Pad2RoundTrip(n: nat)
    requires n < 100
    ensures ParseU32(Pad2(n)) == Some(n)
  {
  }

  /**
   * A leading `+` changes nothing, and a digit string is accepted exactly when
   * its value fits a `u32`, giving that value (leading zeros included).
   */
  lemma ParseU32Range(s: string)
    requires |s| > 0 && AllDigits(s)
    ensures ParseU32("+" + s) == ParseU32(s)
    ensures ParseU32(s).Some? <==> Value(s) <= U32_MAX
    ensures Value(s) <= U32_MAX ==> ParseU32(s) == Some(Value(s))
  {
    assert ("+" + s)[1..] == s;
  }

  /** What `u32::from_str` refuses: the empty string, a lone `+`, and any other non-digit anywhere (so a minus sign too). */
  lemma ParseU32Rejects(s: string)
    requires s == [] || s == "+" || exists i :: 0 <= i < |s| && !IsDigit(s[i]) && (i > 0 || s[i] != '+')
    ensures ParseU32(s) == None
  {
  }
}

=== FILE: http.dfy ===
/**
 * A description of one outgoing HTTP request: what the request builder is
 * given before it is sent. Header names are written in the lower-case form
 * the `http` crate stores them in; media types are the `essence_str()` of the
 * `mime` constants.
 */
module Http {
  import opened Wrappers
  import opened Json

  datatype Method = Get | Post

  type Header = (string, string)

  datatype Request = Request(verb: Method, url: string, headers: seq<Header>, body: Option<Json>)

  const ORIGIN: string := "origin"
  const REFERER: string := "referer"
  const ACCEPT: string := "accept"
  const CONTENT_TYPE: string := "content-type"
  const AUTHORIZATION: string := "authorization"

  const APPLICATION_JSON: string := "application/json"
  const TEXT_PLAIN: string := "text/plain"
}

=== FILE: json.dfy ===
/**
 * JSON values as serde_json hands them to a derived `Deserialize` and takes
 * them from a derived `Serialize`. Objects keep their members in order, since
 * the serialized login body has a fixed field order.
 */
module Json {
  import opened Wrappers

  datatype Json =
    | JNull
    | JBool(b: bool)
    | JNumber(n: int)
    | JString(s: string)
    | JArray(items: seq<Json>)
    | JObject(fields: seq<(string, Json)>)

  function Keys(fields: seq<(string, Json)>): (keys: seq<string>)
    ensures |keys| == |fields|
    ensures forall i :: 0 <= i < |fields| ==> keys[i] == fields[i].0
  {
    if fields == [] then [] else [fields[0].0] + Keys(fields[1..])
  }

  /**
   * The member a derived `Deserialize` reads for a field: present when the key
   * occurs exactly once; a missing key ("missing field") and a repeated key
   * ("duplicate field") are both errors.
   */
  function Lookup(fields: seq<(string, Json)>, key: string): (r: Option<Json>)
    ensures r.Some? <==> multiset(Keys(fields))[key] == 1
    ensures r.Some? ==> (key, r.value) in fields
    decreases |fields|
  {
    if fields == [] then None
    else
      assert Keys(fields) == [fields[0].0] + Keys(fields[1..]);
      if fields[0].0 == key then
        if key in Keys(fields[1..]) then None else Some(fields[0].1)
      else Lookup(fields[1..], key)
  }

  /** A member whose key occurs nowhere else in the object is found under that key. */
  lemma {:induction false} LookupDistinct(fields: seq<(string, Json)>, i: nat)
    requires i < |fields|
    requires forall k :: 0 <= k < |fields| && k != i ==> fields[k].0 != fields[i].0
    ensures Lookup(fields, fields[i].0) == Some(fields[i].1)
    decreases |fields|
  {
    if i > 0 {
      LookupDistinct(fields[1..], i - 1);
    } else {
      assert fields[0].0 !in Keys(fields[1..]);
    }
  }
}

=== FILE: queries.dfy ===
/**
 * The `Query` contract of src/client.rs: a query names a path below the fixed
 * API prefix and may carry a body. The body is kept as the JSON value serde
 * would serialize; a query that does not override `body()` has none.
 */
module Queries {
  import opened Wrappers
  import opened Json

  const URL_PREFIX: string := "https://webservices.api.exetel.com.au/v1"

  datatype Query = Query(path: string, body: Option<Json>)

  datatype UrlError = UnparsableUrl

  /** The provided `body()` of the trait: no body. */
  function DefaultBody(): Option<Json> {
    None
  }

  /**
   * `url()`: the prefix followed by the path, provided the `url` crate accepts
   * it; `validUrl` stands for that crate's parser.
   */
  function Url(q: Query, validUrl: string -> bool): (r: Result<string, UrlError>)
    ensures r.Ok? <==> validUrl(URL_PREFIX + q.path)
    ensures r.Ok? ==> |r.value| >= |URL_PREFIX| && r.value[..|URL_PREFIX|] == URL_PREFIX
                      && r.value[|URL_PREFIX|..] == q.path
  {
    var text := URL_PREFIX + q.path;
    if validUrl(text) then Ok(text) else Err(UnparsableUrl)
  }
}

=== FILE: strings.dfy ===
/**
 * `str::split` on a single character, as `Price::from_str` uses it: every
 * occurrence of the separator cuts the text, so `n` separators give `n + 1`
 * pieces, possibly empty (`"".split('.')` is `[""]`, `"1.".split('.')` is `["1", ""]`).
 */
module Strings {

  function Split(s: string, sep: char): (r: seq<string>)
    ensures |r| >= 1
    decreases |s|
  {
    if |s| == 0 then [""]
    else
      var rest := Split(s[1..], sep);
      if s[0] == sep then [""] + rest else [[s[0]] + rest[0]] + rest[1..]
  }

  /** Glue pieces back together with the separator between each pair. */
  function Join(parts: seq<string>, sep: char): string
    requires |parts| >= 1
    decreases |parts|
  {
    if |parts| == 1 then parts[0] else parts[0] + [sep] + Join(parts[1..], sep)
  }

  /** Splitting loses nothing: the pieces hold no separator and join back to the text. */
  lemma {:induction false} SplitJoin(s: string, sep: char)
    ensures Join(Split(s, sep), sep) == s
    ensures forall i :: 0 <= i < |Split(s, sep)| ==> sep !in Split(s, sep)[i]
    decreases |s|
  {
    if |s| > 0 {
      SplitJoin(s[1..], sep);
      var rest := Split(s[1..], sep);
      if s[0] == sep {
        assert Split(s, sep) == [""] + rest;
        assert Join([""] + rest, sep) == [sep] + Join(rest, sep);
        assert s == [s[0]] + s[1..];
      } else {
        var parts := Split(s, sep);
        assert parts == [[s[0]] + rest[0]] + rest[1..];
        if |rest| == 1 {
          assert Join(parts, sep) == [s[0]] + rest[0];
        } else {
          assert parts[1..] == rest[1..];
          assert Join(rest, sep) == rest[0] + [sep] + Join(rest[1..], sep);
          assert Join(parts, sep) == [s[0]] + Join(rest, sep);
        }
        assert s == [s[0]] + s[1..];
        forall i | 0 <= i < |parts|
          ensures sep !in parts[i]
        {
          if i == 0 {
            assert parts[0] == [s[0]] + rest[0];
          } else {
            assert parts[i] == rest[i];
          }
        }
      }
    }
  }

  /** Text without the separator is one piece. */
  lemma {:induction false} SplitWithout(a: string, sep: char)
    requires sep !in a
    ensures Split(a, sep) == [a]
    decreases |a|
  {
    if |a| > 0 {
      SplitWithout(a[1..], sep);
      assert [a[0]] + a[1..] == a;
    }
  }

  /** A separator-free head followed by a separator splits off as the first piece. */
  lemma {:induction false} SplitAfter(a: string, b: string, sep: char)
    requires sep !in a
    ensures Split(a + [sep] + b, sep) == [a] + Split(b, sep)
    decreases |a|
  {
    var s := a + [sep] + b;
    if |a| == 0 {
      assert s[1..] == b;
    } else {
      assert s[1..] == a[1..] + [sep] + b;
      SplitAfter(a[1..], b, sep);
      assert [a[0]] + a[1..] == a;
    }
  }
}

=== FILE: wrappers.dfy ===
/** Optional values and fallible results, usable with `:-`. */
module Wrappers {

  datatype Option<+T> = None | Some(value: T) {
    predicate IsFailure() { None? }

    function PropagateFailure<U>(): Option<U>
      requires None?
    {
      None
    }

    function Extract(): T
      requires Some?
    {
      value
    }
  }

  datatype Result<+T, +E> = Ok(value: T) | Err(error: E) {
    predicate IsFailure() { Err? }

    function PropagateFailure<U>(): Result<U, E>
      requires Err?
    {
      Err(error)
    }

    function Extract(): T
      requires Ok?
    {
      value
    }
  }
}
